=== FILE: README.md ===
# hl-candles, modelled in Dafny

hl-candles is a small Rust service that sits in front of a market-data API as a cache. It has three parts:

- **Symbol discovery.** A background task keeps discovering the tradable perpetual symbols. It asks the upstream `meta` endpoint, drops delisted and unnamed items, and publishes the list to a shared store. On failure it republishes the last good list.
- **Candle refresh.** A second background task refreshes the candles of every published symbol. It works in batches of ten, with a 200 ms pause between batches. Each fetch is tried up to 3 times, with exponential backoff between attempts. A symbol whose attempts all fail gets an empty series.
- **HTTP handlers.** These serve the store:
  - the whole table, with an `ETag` made from the global last-update time;
  - one symbol, case-insensitively, with the entry's own `ETag`, a 400 for an empty symbol and a 404 for an unknown one;
  - the symbol list with its count;
  - a health summary.

The model has one module per source file:

- **`Types`** (`types.dfy`): the records of `src/types.rs`. Prices are an abstract type and times are integer milliseconds.
- **`Store`** (`cache.dfy`): `src/cache.rs` as a class `Cache`. Its fields are those of `CacheData`. Each method is one atomic step, because each Rust method holds the lock for its whole body. The store's invariant `Valid()` says three things:
  - the keys are exactly the symbols ever written;
  - each entry is filed under its own symbol;
  - the global stamp is absent before the first write and afterwards the stamp of the last write.
- **`Clients`** (`clients.dfy`): `src/clients.rs`.
  - The HTTP exchange is an oracle `Reply`. The fetch functions are the decisions the client takes on it: send error, status check, decode error, filter or mapping.
  - `FetchCandlesWithRetry` keeps its loop. It is proved equal to the specification function `RetryResult`. A ghost log records its backoffs.
- **`Workers`** (`workers.dfy`): `src/workers.rs`.
  - One discovery iteration (`DiscoveryStep`), and a finite run of them (`RunDiscovery`).
  - One candle cycle (`CandleCycle`). It is built from one symbol (`RefreshSymbol`), one position (`RefreshAt`), one batch (`RefreshBatch`, `StepBatch`) and all the batches (`RunBatches`). Each level is proved against the function `Written` of the table after a prefix of the list, and against `SuccessCount`. The task's sleeps go to a ghost log.
- **`Api`** (`api.dfy`): `src/api.rs`. Each handler is a method on the store. It is proved to return the value of a pure response function. The lemmas about those functions state the HTTP behaviour.
- **`Decimal`** and **`Wrappers`**: Rust's `{}` rendering of integers, with its parser as partner, and Option/Result.

Time is a parameter:

- each `Utc::now()` the store takes is the `now` argument of `Set` or `SetSymbols`;
- write k of a cycle happens at `writeClock(k)`;
- the window's two clock readings are `endClock` and `startClock`;
- discovery iteration k runs at `clock(k)`.

Fetch outcomes are oracles. A retried fetch is answered per request and attempt number. In a candle cycle, each position of the list has its own such oracle, so a name listed twice is fetched twice, independently (`Workers.RepeatedSymbolFetchedTwice`).

Three behaviours of the code are worth stating outright:

- The store does not upper-case keys. Only the single-symbol handler upper-cases its path before looking up, so an entry written under a name holding a lower-case letter is unreachable through that handler (`Store.KeysAreVerbatim` for the store, `Api.LowerCaseKeyUnreachable` and `Api.LowerCaseWriteIsNotFound` for the handler).
- Nothing orders the timestamps. The code stamps with the wall clock, so the model takes arbitrary clock readings and proves no monotonicity.
- Only the candle task adds keys to the table, and only names from the current symbol list (`Workers.WrittenKeys`, with `Workers.CandleCycle`). The store itself would accept any key.

## Model

| member | source | states |
|---|---|---|
| Store.Cache.constructor | src/cache.rs:22-26 | a new store is empty: no entries, no symbols, both stamps absent |
| Store.Cache.Set | src/cache.rs:28-40 | upserts the entry under its own symbol with stamp `now`, sets the global stamp to `now`, leaves the symbol list and its stamp alone, keeps the invariant |
| Store.Cache.Get | src/cache.rs:42-45 | returns an entry exactly when that exact key was written, and then the stored entry, whose symbol is the key |
| Store.Cache.GetAll | src/cache.rs:47-51 | returns the whole table; its keys are exactly the symbols ever written |
| Store.Cache.SetSymbols | src/cache.rs:53-57 | replaces the symbol list and stamps it with `now`; the table and its stamp are unchanged |
| Store.Cache.GetSymbols | src/cache.rs:59-62 | returns the current symbol list |
| Store.Cache.GetLastUpdate | src/cache.rs:64-67 | returns the global stamp, absent exactly when nothing was ever written |
| Store.Cache.GetSymbolUpdate | src/cache.rs:69-72 | returns the symbol-list stamp |
| Store.SetThenGet | src/cache.rs:28-45 | a read right after a write returns the written entry, an empty series included |
| Store.KeysAreVerbatim | src/cache.rs:42-45 | keys are compared verbatim: "btc" is found, "BTC" is not |
| Store.NoLostUpdate | src/cache.rs:28-51 | two writes to different symbols are both in the next snapshot, each with its own candles and stamp |
| Store.SymbolsAreLastSet | src/cache.rs:53-62 | a new store has no symbols and no symbol stamp; after two replacements the list and stamp are the second's |
| Decimal.NatToDecimal | src/clients.rs:127 | the rendering of a count is non-empty, all digits, and has no leading zero |
| Decimal.IntToDecimal | src/api.rs:19 | the rendering of a signed integer starts with '-' exactly for a negative value, and is digits otherwise |
| Decimal.NatRoundTrip | src/clients.rs:127 | reading the digits back gives the count |
| Decimal.IntRoundTrip | src/api.rs:19 | parsing the rendering of an integer gives the integer back |
| Clients.StatusCheckedBeforeDecoding | src/clients.rs:82-86 | a non-2xx response fails with "API returned status {code}: {body}", whatever the body would decode to |
| Clients.StatusText | src/clients.rs:85 | a status code renders as the code in decimal, a space and the reason phrase |
| Clients.StatusError | src/clients.rs:82-86 | the error text "API returned status {status}: {body}" |
| Clients.IsSuccess | src/clients.rs:39 | `is_success()` on a status: exactly the 2xx range, the test both fetches apply before decoding |
| Clients.Receive | src/clients.rs:75-90 | the steps both fetches share: a send failure, then the status check, then the decode error, each with its own message |
| Clients.ReceiveOk | src/clients.rs:75-90 | a request succeeds exactly when the send worked, the status is 2xx and the body decoded, and it yields the decoded value |
| Clients.FilterUniverse | src/clients.rs:49-53 | the kept names are no more than the items, and none is empty |
| Clients.Listed | src/clients.rs:51 | the filter closure: an item is kept exactly when its name is non-empty and it is not flagged delisted (pinned by `Clients.FilterMembership`) |
| Clients.FilterAppend | src/clients.rs:49-53 | the filter distributes over concatenation, so the upstream order is kept |
| Clients.FilterMembership | src/clients.rs:51 | a name is kept if and only if some item with that name is non-empty and not delisted |
| Clients.FetchPerpetualSymbols | src/clients.rs:27-56 | succeeds exactly on a 2xx decoded reply, and then yields the filtered universe |
| Clients.MapCandles | src/clients.rs:92-99 | one candle per raw candle, in order, with t, o, h, l, c, v copied field by field |
| Clients.ToCandle | src/clients.rs:92-99 | the map closure: one raw candle becomes a candle with t, o, h, l, c, v copied to timestamp, open, high, low, close, volume |
| Clients.FetchCandles | src/clients.rs:58-102 | succeeds exactly on a 2xx decoded reply, and then yields the mapped candles |
| Clients.Attempt | src/clients.rs:115 | one `fetch_candles` call of the retry loop: attempt k is the candle fetch over the upstream's reply to that request at attempt k |
| Clients.Pow2 | src/clients.rs:120 | `1 << k`, that is 2^k |
| Clients.Backoffs | src/clients.rs:119-122 | the backoff after failed attempt j is 2^j seconds |
| Clients.BackoffTotal | src/clients.rs:119-122 | the first k backoffs add up to 2^k - 1 seconds |
| Clients.RetryError | src/clients.rs:127 | the error text "Failed after {n} retries: {last error}" |
| Clients.LastError | src/clients.rs:112-118 | the error of the last attempt made, or "" when no attempt was made |
| Clients.RetryResult | src/clients.rs:112-127 | the retry's result as a function of the attempts' outcomes: the first success, else the exhaustion error |
| Clients.FirstOk | src/clients.rs:114-116 | finds the earliest successful attempt below the budget, all earlier attempts having failed, or the budget if none succeeds |
| Clients.RetrySucceedsIff | src/clients.rs:114-127 | the retry succeeds if and only if one of the first max_retries attempts does |
| Clients.RetryReturnsFirstSuccess | src/clients.rs:115-116 | a success is the earliest successful attempt's candles |
| Clients.RetryExhausted | src/clients.rs:112-127 | if every attempt fails, the error is "Failed after {n} retries: {last error}", with "" as the last error when n is 0 |
| Clients.FetchCandlesWithRetry | src/clients.rs:104-128 | the loop returns `RetryResult`; the requests it sends, logged where `fetch_candles` is called, are attempts 0, 1, … in order and at most max_retries of them; it stops at the first success; it sleeps 1, 2, 4, … s after every failure except the final attempt |
| Clients.RetryThreeAlwaysFailing | src/clients.rs:114-127 | with the candle task's budget of 3 and a failing upstream: requests for attempts 0, 1 and 2, sleeps of 1 s and 2 s, and the error names 3 and the third failure |
| Workers.TotalBatches | src/workers.rs:65 | `(n + 10 - 1) / 10` |
| Workers.LookbackWindow | src/workers.rs:62-63 | the window ends at the first clock reading and starts candle_days days before the second |
| Workers.Batches | src/workers.rs:65-68 | `chunks(10)` yields ceil(n / 10) batches |
| Workers.BatchesShape | src/workers.rs:68 | batch i is the slice of the list from 10·i to 10·i + 10, capped at its end |
| Workers.BatchSizes | src/workers.rs:68 | every batch has 1 to 10 symbols, and all but the last have exactly 10 |
| Workers.BatchesPartition | src/workers.rs:68 | the batches concatenated give back the list |
| Workers.BatchAt | src/workers.rs:68 | batch b is the non-empty slice between the capped positions 10·b and 10·(b+1) |
| Workers.BatchesCover | src/workers.rs:65 | the batches' total extent, capped, is the whole list |
| Workers.InterBatchPauses | src/workers.rs:103-105 | the sleeps of the batch loop: 200 ms after every batch but the last |
| Workers.InterBatchPausesShape | src/workers.rs:103-105 | there is one 200 ms pause fewer than there are batches |
| Workers.PauseStep | src/workers.rs:103-105 | a batch that is not the last adds exactly one 200 ms pause |
| Workers.RequestFor | src/workers.rs:81 | the candle request of one symbol over the cycle's window |
| Workers.SymbolOutcome | src/workers.rs:81 | the `fetch_candles_with_retry(.., 3)` call of one symbol's task: the retry result with budget 3 over that symbol's request (described by `Clients.RetrySucceedsIff` and `Clients.RetryExhausted`) |
| Workers.StoredCandles | src/workers.rs:82-91 | what a symbol's task writes: the fetched candles, or [] once retries are exhausted |
| Workers.CycleOutcome | src/workers.rs:74-81 | the fan-out of one cycle: each position of the list gets its own `fetch_candles_with_retry(.., 3)` for its name, and every position uses the same `start_time` and `end_time` |
| Workers.Written | src/workers.rs:74-95 | the table after the first n positions of the list are written in order, position k with its own fetch's candles or [] and stamp writeClock(k) |
| Workers.RepeatedSymbolFetchedTwice | src/workers.rs:74-101 | a name listed twice is fetched twice: with "A" at positions 0 and 10, which fall in different batches whose joins order the writes, a failed first fetch and a successful second one leave the second's candles, and the second fetch adds one success |
| Workers.WrittenListed | src/workers.rs:80-92 | after a cycle each listed symbol has an entry under its own name, written by one of its positions in the list: that position's fetched candles (or [] after exhausted retries) and that write's stamp |
| Workers.WrittenOthers | src/workers.rs:74-95 | a symbol not in the list keeps its old entry, or stays absent |
| Workers.WrittenKeys | src/workers.rs:74-95 | a cycle's keys are the old keys plus the listed symbols |
| Workers.SuccessCount | src/workers.rs:97-101 | the number of successful fetches among the first n positions, never more than n |
| Workers.SuccessCountAll | src/workers.rs:97-101 | the count equals the number of symbols if and only if every fetch succeeded |
| Workers.SuccessCountNone | src/workers.rs:97-101 | the count is zero if and only if every fetch failed |
| Workers.RefreshSymbol | src/workers.rs:80-93 | one symbol's task: writes the retried fetch's candles or [] at `now`, and reports success exactly when the retry succeeded |
| Workers.RefreshAt | src/workers.rs:74-95 | after writing position pos, the table is `Written` for one more symbol, the stamp is that write's, and the count grows by its success |
| Workers.RefreshBatch | src/workers.rs:72-101 | a batch at positions lo .. lo+len extends `Written` and the success count over those positions |
| Workers.StepBatch | src/workers.rs:68-106 | batch b extends the written prefix to the capped 10·(b+1); it adds a 200 ms pause unless it is the last batch |
| Workers.RunBatches | src/workers.rs:65-106 | all batches write every listed symbol in order; the stamp is the last write's; the count is the number of successes; there is one pause between each pair of batches |
| Workers.CandleCycle | src/workers.rs:51-111 | with no symbols: nothing is written, no window is computed, and the task sleeps 5 s; otherwise: the window, every symbol written, the success count, the pauses, then the refresh-interval sleep; the symbol list is never changed |
| Workers.Published | src/workers.rs:18-35 | what one discovery iteration passes to `set_symbols`: a fresh non-empty list, else on error the non-empty cached list, else nothing |
| Workers.NextCached | src/workers.rs:18-35 | the task's `cached_symbols` after one iteration: replaced only by a fresh non-empty list |
| Workers.PublishedShape | src/workers.rs:18-35 | only non-empty lists are published; on a fetch error the cached list is republished exactly when it is non-empty |
| Workers.LastGoodIsLatest | src/workers.rs:14-35 | the remembered list is the latest non-empty successful discovery, or empty if there was none |
| Workers.LastGood | src/workers.rs:14-35 | the value of `cached_symbols` after a run: it starts empty (line 14) and is reassigned only by a non-empty successful fetch (line 25) |
| Workers.DiscoveryStep | src/workers.rs:17-36 | one iteration publishes a fresh non-empty list or the non-empty cached one, stamped `now`, and otherwise leaves the store unchanged; it returns what it handed to `set_symbols` and the new `cached_symbols`; it never touches the candle table |
| Workers.RunDiscovery | src/workers.rs:14-37 | after k iterations the task remembers the latest non-empty successful list; the log of `set_symbols` calls, taken from the steps, is `PublishLog`; when it is non-empty the store holds the last logged list stamped with that iteration's clock, and otherwise the list and stamp are unchanged; every published list is non-empty |
| Workers.PublishedAt | src/workers.rs:18-34 | what iteration k hands to `set_symbols`, given the iterations before it |
| Workers.PublishLog | src/workers.rs:14-37 | the `set_symbols` calls of a run, in order, each with its iteration and list |
| Workers.PublishLogExact | src/workers.rs:14-37 | the log holds exactly the iterations that publish, in increasing order, each with the list it publishes |
| Workers.PublishLogLast | src/workers.rs:19-34 | a run publishes something exactly when it saw a non-empty successful list, and the last list it publishes is the latest such list |
| Workers.DiscoveryStampExample | src/workers.rs:19-34 | a good list, a failure, then an empty list: the failure republishes the cached list, the empty list publishes nothing, so the stamp is the failure's |
| Api.ETagValue | src/api.rs:19 | `format!("\"{}\"", time.timestamp())`: the Unix seconds in double quotes |
| Api.ETagHeader | src/api.rs:19-21 | the `ETag` header a time yields, dropped when the text is not a valid header value |
| Api.ParseHeaderValue | src/api.rs:19 | the `.parse()` into a `HeaderValue` (here and at line 39): accepts exactly the strings of tab and bytes 0x20 and up except 0x7F, and then keeps the text unchanged; this set is why `Api.ETagIsStrong` can promise the tag is always inserted |
| Api.UnixSeconds | src/api.rs:19 | `timestamp()` is the whole seconds of a millisecond time, rounded down |
| Api.ETagIsStrong | src/api.rs:19-21 | the tag is a strong entity-tag as defined in section 8.8.3 of RFC 9110, and it is always a valid header value, so it is always inserted |
| Api.ETagRoundTrip | src/api.rs:19 | the seconds read back from between the quotes are the time's Unix seconds |
| Api.ETagSameSecond | src/api.rs:19 | two times get the same tag if and only if they fall in the same second |
| Api.UpperChar | src/api.rs:31 | maps a–z to A–Z and leaves every other character alone |
| Api.ToUpper | src/api.rs:31 | upper-casing keeps the length and upper-cases character by character |
| Api.ToUpperProperties | src/api.rs:31-33 | after upper-casing no lower-case letter is left; the result is empty exactly when the input is; a second pass changes nothing |
| Api.LowerCaseKeyUnreachable | src/api.rs:31-37 | no path upper-cases to a key holding a lower-case letter, so the handler answers every path as if that entry were absent |
| Api.AllCandlesResponse | src/api.rs:11-25 | the all-candles answer on a table snapshot and the global stamp |
| Api.AllCandlesShape | src/api.rs:11-25 | 200 with the whole table, and an ETag if and only if a last update exists, the tag then being that update's |
| Api.SymbolCandlesResponse | src/api.rs:27-46 | the single-symbol answer: 400 for an empty upper-cased path, 200 with the entry and its tag when found, 404 otherwise |
| Api.SymbolRequired | src/api.rs:31-35 | the answer is 400 "Symbol required" if and only if the path is empty, whatever the store holds |
| Api.SymbolLookup | src/api.rs:37-45 | a non-empty path gets 200 with the entry under its upper-cased form and that entry's ETag (an empty series too), or 404 "Symbol not found" |
| Api.SymbolCaseInsensitive | src/api.rs:31-37 | a path and its upper-cased form get the same answer |
| Api.SymbolsResponse | src/api.rs:48-60 | 200 with the symbol list, and a count equal to its length |
| Api.HealthResponse | src/api.rs:62-77 | 200 with status "healthy", the number of symbols, and both stamps passed through |
| Api.HandleGetAllCandles | src/api.rs:11-25 | answers from the store's table and global stamp; there is an ETag exactly when something has been written |
| Api.HandleGetSymbolCandles | src/api.rs:27-46 | answers the path's response on the store's table |
| Api.HandleGetSymbols | src/api.rs:48-60 | answers the response for the store's symbol list |
| Api.HandleHealth | src/api.rs:62-77 | answers the health response for the store's symbols and stamps |
| Api.EmptySeriesIsServed | src/api.rs:31-42 | after "BTC" is written with no candles, "btc" gets 200 with that empty entry and its ETag |
| Api.UnknownSymbolIsNotFound | src/api.rs:43-45 | a symbol never written gets 404 "Symbol not found" |
| Api.LowerCaseWriteIsNotFound | src/api.rs:31-45 | an entry written as "kPEPE" is in the store, yet a request for "kPEPE" gets 404 "Symbol not found" |
| Api.FreshStoreHasNoTag | src/api.rs:14-24 | an untouched store answers with 200, an empty table and no ETag |
| Api.ETagExample | src/api.rs:19 | 42 999 ms gives the tag "42", and -1 ms gives "-1" (rounded down) |

## Left out

- Api.ToUpper: upper-cases only ASCII a–z. Rust's `to_uppercase` follows Unicode, and can change the length (for example ß becomes SS).
- Api.UpperChar: maps only ASCII a–z, for the same reason. Rust's upper-casing of other letters is not modelled.
- Clients.FetchCandlesWithRetry: the retry count is an unbounded nat. The model does not cover `1 << attempt` overflowing a u64 for attempts of 64 and more. The callers use a budget of 3.
- Workers.LookbackWindow: uses unbounded integers. It does not model i64 overflow of `candle_days * 86 400 000`, or of the subtraction.
- Workers.RefreshBatch: runs a batch's symbols one after another in list order. The source spawns them concurrently, and their writes may interleave in any order. The table after the batch is the same for distinct symbols, but the global stamp is not determined.
- Workers.Written: for a name that appears twice within one batch, the model keeps the later position's write. In the source both tasks race, so either write may be the one left.
- Workers.WrittenListed: taken at a name's last position within one batch, it fixes the entry to that position's write, which the source's race does not promise; across batches it holds, because each batch is joined before the next starts.
- Workers.RefreshBatch: does not model a spawned task that panics, whose join returns an error. Such a task is not counted as a success, and if it panics before `cache.set` its symbol is not written in that cycle.
- Workers.RunDiscovery: runs a finite prefix of the endless discovery loop. It does not log the `refresh_interval` sleep.
- Workers.CandleCycle: the retry backoffs slept inside the spawned tasks are not part of the cycle's sleep log; `Workers.RefreshSymbol` drops the client's backoff log, which `Clients.FetchCandlesWithRetry` states.
- Workers.CandleCycle: models one iteration of the endless candle loop, not the chain of cycles.
- Api.HandleGetAllCandles: reads the table and then the stamp as one atomic step. In the source these are two lock acquisitions, so a write can fall between them. The same holds for the two reads of `handle_health`.
- JSON serialisation of the bodies is not modelled. This includes `HealthResponse` omitting absent stamps and the deserialisation of upstream prices from strings. Bodies are the values that would be serialised.
- Floating point is not modelled: prices are an abstract type, and nothing computes with them.
- The HTTP transport, the 10 s client timeout, the logging, the router and `src/main.rs` (configuration and task start-up) are not modelled.
- `Utc::now()` is not modelled as a real clock: every reading is a parameter.

=== FILE: api.dfy ===
/**
 * The request handlers of src/api.rs. Each handler reads the store through
 * its getters and builds a response; the decision it takes is a function of
 * what it read, and the handler method is proved to answer with that
 * function's value. JSON encoding of the bodies is not modelled: a body is the
 * value that would be serialised.
 */
module Api {

  import opened Wrappers
  import opened Types
  import opened Store
  import Decimal

  /** What a handler serialises as its body. */
  datatype Body =
    | Table(table: map<string, CacheEntry>)
    | Entry(entry: CacheEntry)
    | Text(text: string)
    | SymbolList(symbols: seq<string>, count: nat)
    | Health(status: string, symbolCount: nat, lastUpdate: Option<int>, symbolUpdate: Option<int>)

  /** An HTTP answer: status code, the `ETag` header if one was inserted, and the body. */
  datatype Response = Response(status: nat, etag: Option<string>, body: Body)

  const OK: nat := 200
  const BAD_REQUEST: nat := 400
  const NOT_FOUND: nat := 404

  // ----- entity tags -----

  /** `DateTime::timestamp`: whole seconds since the epoch, rounded down, of a time in milliseconds. */
  function UnixSeconds(ms: int): (secs: int)
    ensures secs * 1000 <= ms < secs * 1000 + 1000
  {
    ms / 1000
  }

  /** `format!("\"{}\"", time.timestamp())`. */
  function ETagValue(ms: int): string {
    "\"" + Decimal.IntToDecimal(UnixSeconds(ms)) + "\""
  }

  /** The bytes `HeaderValue` accepts: horizontal tab, and everything from space up except DEL. */
  predicate IsHeaderValueChar(c: char) {
    c == '\t' || (' ' <= c && c as int != 0x7F)
  }

  /** The `.parse()` of the formatted tag into a header value, which fails on a forbidden byte. */
  function ParseHeaderValue(s: string): (r: Option<string>)
    ensures r.Some? ==> r.value == s
  {
    if forall i :: 0 <= i < |s| ==> IsHeaderValueChar(s[i]) then Some(s) else None
  }

  /** The `ETag` header a time yields; the `if let Ok(..)` drops it when parsing fails. */
  function ETagHeader(ms: int): Option<string> {
    ParseHeaderValue(ETagValue(ms))
  }

  /** etagc of section 8.8.3 of RFC 9110: %x21 / %x23-7E / obs-text. */
  predicate IsETagChar(c: char) {
    c == '!' || ('#' <= c <= '~') || (0x80 <= c as int <= 0xFF)
  }

  /** A strong entity-tag of section 8.8.3 of RFC 9110: DQUOTE *etagc DQUOTE, with no W/ prefix. */
  predicate IsStrongEntityTag(s: string) {
    && |s| >= 2 && s[0] == '"' && s[|s| - 1] == '"'
    && forall i :: 1 <= i < |s| - 1 ==> IsETagChar(s[i])
  }

  /** The seconds a strong tag of this service carries, read back from between the quotes. */
  function ParseETag(s: string): Option<int> {
    if IsStrongEntityTag(s) then Decimal.ParseInt(s[1..|s| - 1]) else None
  }

  /** The tag is a strong entity-tag, and parsing it as a header value always succeeds. */
  lemma ETagIsStrong(ms: int)
    ensures IsStrongEntityTag(ETagValue(ms))
    ensures ETagHeader(ms) == Some(ETagValue(ms))
  {
    var d := Decimal.IntToDecimal(UnixSeconds(ms));
    var s := ETagValue(ms);
    assert s[1..|s| - 1] == d;
    forall i | 1 <= i < |s| - 1
      ensures IsETagChar(s[i]) && IsHeaderValueChar(s[i])
    {
      assert s[i] == d[i - 1];
    }
  }

  /** The tag carries exactly the time's Unix seconds. */
  lemma ETagRoundTrip(ms: int)
    ensures ParseETag(ETagValue(ms)) == Some(UnixSeconds(ms))
  {
    ETagIsStrong(ms);
    var s := ETagValue(ms);
    assert s[1..|s| - 1] == Decimal.IntToDecimal(UnixSeconds(ms));
    Decimal.IntRoundTrip(UnixSeconds(ms));
  }

  /** Two times share a tag exactly when they fall in the same second. */
  lemma ETagSameSecond(t1: int, t2: int)
    ensures ETagValue(t1) == ETagValue(t2) <==> UnixSeconds(t1) == UnixSeconds(t2)
  {
    ETagRoundTrip(t1);
    ETagRoundTrip(t2);
  }

  // ----- the path symbol -----

  predicate IsLowerAscii(c: char) {
    'a' <= c <= 'z'
  }

  function UpperChar(c: char): (u: char)
    ensures !IsLowerAscii(u)
    ensures IsLowerAscii(c) ==> u as int == c as int - 32
    ensures !IsLowerAscii(c) ==> u == c
  {
    if IsLowerAscii(c) then (c as int - 32) as char else c
  }

  /** `str::to_uppercase`, on ASCII letters. */
  function ToUpper(s: string): (u: string)
    ensures |u| == |s|
    ensures forall i :: 0 <= i < |s| ==> u[i] == UpperChar(s[i])
    decreases |s|
  {
    if s == [] then [] else [UpperChar(s[0])] + ToUpper(s[1..])
  }

  /** Upper-casing leaves no lower-case letter, keeps emptiness, and a second pass changes nothing. */
  lemma ToUpperProperties(s: string)
    ensures forall i :: 0 <= i < |ToUpper(s)| ==> !IsLowerAscii(ToUpper(s)[i])
    ensures ToUpper(s) == [] <==> s == []
    ensures ToUpper(ToUpper(s)) == ToUpper(s)
  {
  }

  // ----- the four handlers, as decisions on what was read -----

  /** `handle_get_all_candles` on the snapshot `table` and the global `lastUpdate`. */
  function AllCandlesResponse(table: map<string, CacheEntry>, lastUpdate: Option<int>): Response {
    var etag := match lastUpdate
      case Some(t) => ETagHeader(t)
      case None => None;
    Response(OK, etag, Table(table))
  }

  /** The whole table with status 200; a tag exactly when the store has a last update, and then its tag. */
  lemma AllCandlesShape(table: map<string, CacheEntry>, lastUpdate: Option<int>)
    ensures AllCandlesResponse(table, lastUpdate).status == OK
    ensures AllCandlesResponse(table, lastUpdate).body == Table(table)
    ensures AllCandlesResponse(table, lastUpdate).etag.Some? <==> lastUpdate.Some?
    ensures lastUpdate.Some? ==> AllCandlesResponse(table, lastUpdate).etag == Some(ETagValue(lastUpdate.value))
  {
    if lastUpdate.Some? {
      ETagIsStrong(lastUpdate.value);
    }
  }

  /** `handle_get_symbol_candles` for the path segment `path`, looking up in `table`. */
  function SymbolCandlesResponse(path: string, table: map<string, CacheEntry>): Response {
    var key := ToUpper(path);
    if key == [] then Response(BAD_REQUEST, None, Text("Symbol required"))
    else if key in table then Response(OK, ETagHeader(table[key].lastUpdate), Entry(table[key]))
    else Response(NOT_FOUND, None, Text("Symbol not found"))
  }

  /** An empty path is a 400 "Symbol required", whatever the store holds. */
  lemma SymbolRequired(path: string, table: map<string, CacheEntry>)
    ensures SymbolCandlesResponse(path, table).status == BAD_REQUEST <==> path == []
    ensures path == [] ==> SymbolCandlesResponse(path, table) == Response(BAD_REQUEST, None, Text("Symbol required"))
  {
    ToUpperProperties(path);
  }

  /**
   * A non-empty path is answered from the entry under its upper-cased form:
   * 200 with the entry and its tag when present (whatever its candles, [] too),
   * 404 "Symbol not found" when absent.
   */
  lemma SymbolLookup(path: string, table: map<string, CacheEntry>)
    requires path != []
    ensures var key := ToUpper(path);
      && (key in table ==>
            SymbolCandlesResponse(path, table) == Response(OK, Some(ETagValue(table[key].lastUpdate)), Entry(table[key])))
      && (key !in table ==>
            SymbolCandlesResponse(path, table) == Response(NOT_FOUND, None, Text("Symbol not found")))
  {
    ToUpperProperties(path);
    var key := ToUpper(path);
    if key in table {
      ETagIsStrong(table[key].lastUpdate);
    }
  }

  /** The path's case does not matter: a path and its upper-cased form get the same answer. */
  lemma SymbolCaseInsensitive(path: string, table: map<string, CacheEntry>)
    ensures SymbolCandlesResponse(path, table) == SymbolCandlesResponse(ToUpper(path), table)
  {
    ToUpperProperties(path);
  }

  /**
   * A key holding a lower-case letter is never looked up: no path upper-cases
   * to it, so the handler answers every path as if that entry were absent.
   */
  lemma LowerCaseKeyUnreachable(path: string, table: map<string, CacheEntry>, s: string, k: nat)
    requires k < |s| && IsLowerAscii(s[k])
    ensures ToUpper(path) != s
    ensures SymbolCandlesResponse(path, table) == SymbolCandlesResponse(path, table - {s})
  {
    ToUpperProperties(path);
  }

  /** `handle_get_symbols`. */
  function SymbolsResponse(symbols: seq<string>): (r: Response)
    ensures r.status == OK && r.etag.None?
    ensures r.body.SymbolList? && r.body.symbols == symbols && r.body.count == |r.body.symbols|
  {
    Response(OK, None, SymbolList(symbols, |symbols|))
  }

  /** `handle_health`. */
  function HealthResponse(symbols: seq<string>, lastUpdate: Option<int>, symbolUpdate: Option<int>): (r: Response)
    ensures r.status == OK && r.etag.None? && r.body.Health?
    ensures r.body.status == "healthy" && r.body.symbolCount == |symbols|
    ensures r.body.lastUpdate == lastUpdate && r.body.symbolUpdate == symbolUpdate
  {
    Response(OK, None, Health("healthy", |symbols|, lastUpdate, symbolUpdate))
  }

  // ----- the handlers on the store -----

  method HandleGetAllCandles(cache: Cache) returns (resp: Response)
    requires cache.Valid()
    ensures resp == AllCandlesResponse(cache.data, cache.lastUpdate)
    ensures resp.etag.Some? <==> cache.written != {}
  {
    var allCandles := cache.GetAll();
    var lastUpdate := cache.GetLastUpdate();
    AllCandlesShape(allCandles, lastUpdate);
    resp := AllCandlesResponse(allCandles, lastUpdate);
  }

  /** The store is consulted only for a non-empty symbol. */
  method HandleGetSymbolCandles(cache: Cache, path: string) returns (resp: Response)
    requires cache.Valid()
    ensures resp == SymbolCandlesResponse(path, cache.data)
  {
    var symbolUpper := ToUpper(path);
    if symbolUpper == [] {
      return Response(BAD_REQUEST, None, Text("Symbol required"));
    }
    var entry := cache.Get(symbolUpper);
    match entry
    case Some(e) =>
      resp := Response(OK, ETagHeader(e.lastUpdate), Entry(e));
    case None =>
      resp := Response(NOT_FOUND, None, Text("Symbol not found"));
  }

  method HandleGetSymbols(cache: Cache) returns (resp: Response)
    ensures resp == SymbolsResponse(cache.symbols)
  {
    var symbols := cache.GetSymbols();
    resp := SymbolsResponse(symbols);
  }

  method HandleHealth(cache: Cache) returns (resp: Response)
    requires cache.Valid()
    ensures resp == HealthResponse(cache.symbols, cache.lastUpdate, cache.symbolUpdate)
  {
    var symbols := cache.GetSymbols();
    var lastUpdate := cache.GetLastUpdate();
    var symbolUpdate := cache.GetSymbolUpdate();
    resp := HealthResponse(symbols, lastUpdate, symbolUpdate);
  }

  // ----- scenarios -----

  /** A symbol written with an empty series is served with 200 and that series, under any case of its name. */
  method EmptySeriesIsServed(now: int) returns (resp: Response)
    ensures resp.status == OK
    ensures resp.body == Entry(CacheEntry("BTC", [], now))
    ensures resp.etag == Some(ETagValue(now))
  {
    var cache := new Cache();
    cache.Set("BTC", [], now);
    assert ToUpper("btc") == "BTC";
    resp := HandleGetSymbolCandles(cache, "btc");
    SymbolLookup("btc", cache.data);
  }

  /** A symbol never written is a 404. */
  method UnknownSymbolIsNotFound(now: int) returns (resp: Response)
    ensures resp == Response(NOT_FOUND, None, Text("Symbol not found"))
  {
    var cache := new Cache();
    cache.Set("BTC", [], now);
    assert ToUpper("xyz") == "XYZ";
    resp := HandleGetSymbolCandles(cache, "xyz");
  }

  /** A symbol written under a name with a lower-case letter is in the store, yet a 404 under that very name. */
  method LowerCaseWriteIsNotFound(now: int) returns (stored: Option<CacheEntry>, resp: Response)
    ensures stored == Some(CacheEntry("kPEPE", [], now))
    ensures resp == Response(NOT_FOUND, None, Text("Symbol not found"))
  {
    var cache := new Cache();
    cache.Set("kPEPE", [], now);
    stored := cache.Get("kPEPE");
    assert ToUpper("kPEPE") == "KPEPE";
    resp := HandleGetSymbolCandles(cache, "kPEPE");
  }

  /** An untouched store answers the table request with an empty table and no tag. */
  method FreshStoreHasNoTag() returns (resp: Response)
    ensures resp == Response(OK, None, Table(map[]))
  {
    var cache := new Cache();
    resp := HandleGetAllCandles(cache);
  }

  /** A tag at a time in milliseconds is its second count in quotes. */
  lemma ETagExample()
    ensures ETagValue(42_999) == "\"42\""
    ensures ETagValue(-1) == "\"-1\""
  {
    assert UnixSeconds(42_999) == 42;
    assert Decimal.NatToDecimal(42) == "42";
    assert UnixSeconds(-1) == -1;
  }
}

=== FILE: cache.dfy ===
/**
 * The shared store of src/cache.rs. The Rust `Cache` is an `Arc<RwLock<CacheData>>`;
 * every method takes the lock for its whole body, so each is modelled as one
 * atomic step on the fields of `CacheData`. `Utc::now()` is the `now` argument.
 */
module Store {

  import opened Wrappers
  import opened Types

  class Cache {
    var data: map<string, CacheEntry>
    var symbols: seq<string>
    var lastUpdate: Option<int>
    var symbolUpdate: Option<int>

    /** Every symbol ever passed to Set (history, not stored by the source). */
    ghost var written: set<string>
    /** The symbol of the most recent write, whose stamp the table's stamp is. */
    ghost var lastWritten: string

    /**
     * The store's invariant: its keys are exactly the symbols ever written,
     * each entry is filed under its own symbol, and the global last update is
     * absent before the first write and afterwards the stamp of the entry
     * written last.
     */
    ghost predicate Valid()
      reads this
    {
      && data.Keys == written
      && (forall s :: s in data ==> data[s].symbol == s)
      && (lastUpdate.None? <==> data == map[])
      && (lastUpdate.Some? ==> lastWritten in data && data[lastWritten].lastUpdate == lastUpdate.value)
    }

    /** `Cache::new`: `CacheData::default()`. */
    constructor ()
      ensures Valid()
      ensures data == map[] && symbols == []
      ensures lastUpdate == None && symbolUpdate == None
      ensures written == {}
    {
      data := map[];
      symbols := [];
      lastUpdate := None;
      symbolUpdate := None;
      written := {};
      lastWritten := "";
    }

    /** Upsert the entry of `symbol` and stamp it and the whole table with `now`. */
    method Set(symbol: string, candles: seq<Candle>, now: int)
      requires Valid()
      modifies this
      ensures Valid()
      ensures data == old(data)[symbol := CacheEntry(symbol, candles, now)]
      ensures lastUpdate == Some(now)
      ensures symbols == old(symbols) && symbolUpdate == old(symbolUpdate)
      ensures written == old(written) + {symbol} && lastWritten == symbol
    {
      data := data[symbol := CacheEntry(symbol, candles, now)];
      lastUpdate := Some(now);
      written := written + {symbol};
      lastWritten := symbol;
    }

    /** A copy of the entry stored under exactly `symbol`, if any. */
    method Get(symbol: string) returns (entry: Option<CacheEntry>)
      requires Valid()
      ensures entry.Some? <==> symbol in written
      ensures entry.Some? ==> entry.value == data[symbol] && entry.value.symbol == symbol
    {
      entry := if symbol in data then Some(data[symbol]) else None;
    }

    /** A copy of the whole table. */
    method GetAll() returns (all: map<string, CacheEntry>)
      requires Valid()
      ensures all == data
      ensures all.Keys == written
    {
      all := data;
    }

    /** Replace the symbol universe wholesale and stamp it with `now`. */
    method SetSymbols(newSymbols: seq<string>, now: int)
      requires Valid()
      modifies this
      ensures Valid()
      ensures symbols == newSymbols && symbolUpdate == Some(now)
      ensures data == old(data) && lastUpdate == old(lastUpdate)
      ensures written == old(written) && lastWritten == old(lastWritten)
    {
      symbols := newSymbols;
      symbolUpdate := Some(now);
    }

    method GetSymbols() returns (s: seq<string>)
      ensures s == symbols
    {
      s := symbols;
    }

    method GetLastUpdate() returns (t: Option<int>)
      requires Valid()
      ensures t == lastUpdate
      ensures t.None? <==> written == {}
    {
      t := lastUpdate;
    }

    method GetSymbolUpdate() returns (t: Option<int>)
      ensures t == symbolUpdate
    {
      t := symbolUpdate;
    }
  }

  /** A read right after a write returns what was written, even an empty series. */
  method SetThenGet(cache: Cache, symbol: string, candles: seq<Candle>, now: int)
    returns (entry: Option<CacheEntry>)
    requires cache.Valid()
    modifies cache
    ensures entry == Some(CacheEntry(symbol, candles, now))
    ensures cache.lastUpdate == Some(now)
  {
    cache.Set(symbol, candles, now);
    entry := cache.Get(symbol);
  }

  /** Keys are compared verbatim: a lower-case write is not found under upper case. */
  method KeysAreVerbatim(now: int) returns (upper: Option<CacheEntry>, lower: Option<CacheEntry>)
    ensures upper == None
    ensures lower == Some(CacheEntry("btc", [], now))
  {
    var cache := new Cache();
    cache.Set("btc", [], now);
    upper := cache.Get("BTC");
    lower := cache.Get("btc");
  }

  /** Two writes to different symbols are both visible in the next snapshot. */
  method NoLostUpdate(a: string, b: string, ca: seq<Candle>, cb: seq<Candle>, ta: int, tb: int)
    returns (all: map<string, CacheEntry>)
    requires a != b
    ensures all.Keys == {a, b}
    ensures all[a] == CacheEntry(a, ca, ta) && all[b] == CacheEntry(b, cb, tb)
  {
    var cache := new Cache();
    cache.Set(a, ca, ta);
    cache.Set(b, cb, tb);
    all := cache.GetAll();
  }

  /** A new store is empty; its symbol list is the last one set, and [] before that. */
  method SymbolsAreLastSet(first: seq<string>, second: seq<string>, t1: int, t2: int)
    returns (initial: seq<string>, initialUpdate: Option<int>, final: seq<string>, finalUpdate: Option<int>)
    ensures initial == [] && initialUpdate == None
    ensures final == second && finalUpdate == Some(t2)
  {
    var cache := new Cache();
    initial := cache.GetSymbols();
    initialUpdate := cache.GetSymbolUpdate();
    cache.SetSymbols(first, t1);
    cache.SetSymbols(second, t2);
    final := cache.GetSymbols();
    finalUpdate := cache.GetSymbolUpdate();
  }
}

=== FILE: clients.dfy ===
/**
 * The upstream client of src/clients.rs. The HTTP exchange itself is an
 * oracle: a `Reply` says how the request went, and the functions here are the
 * decisions the client takes on it. The candle fetch with retry keeps its loop.
 */
module Clients {

  import opened Wrappers
  import opened Types
  import Decimal

  /**
   * What one POST to the upstream produced: the send failed (with the error's
   * text), or a response arrived with its status code, the status's canonical
   * reason phrase, its body as text (empty if it could not be read) and the
   * outcome of decoding the body as JSON.
   */
  datatype Reply<T> =
    | SendFailed(reason: string)
    | Received(status: nat, reasonPhrase: string, body: string, decoded: Result<T, string>)

  /** `StatusCode::is_success`: the 2xx range. */
  predicate IsSuccess(status: nat) {
    200 <= status <= 299
  }

  /** `StatusCode`'s Display: the code, a space, the reason phrase. */
  function StatusText(status: nat, reasonPhrase: string): string {
    Decimal.NatToDecimal(status) + " " + reasonPhrase
  }

  function StatusError(status: nat, reasonPhrase: string, body: string): string {
    "API returned status " + StatusText(status, reasonPhrase) + ": " + body
  }

  /** The steps both fetches share: send, check the status, then decode the body. */
  function Receive<T>(reply: Reply<T>): Result<T, string> {
    match reply
    case SendFailed(reason) => Err("Failed to send request: " + reason)
    case Received(status, phrase, body, decoded) =>
      if !IsSuccess(status) then Err(StatusError(status, phrase, body))
      else match decoded
        case Ok(v) => Ok(v)
        case Err(e) => Err("Failed to parse response: " + e)
  }

  /** A non-success status is reported before, and whatever, the body would decode to. */
  lemma StatusCheckedBeforeDecoding<T>(reply: Reply<T>, other: Result<T, string>)
    requires reply.Received? && !IsSuccess(reply.status)
    ensures Receive(reply) == Receive(reply.(decoded := other))
    ensures Receive(reply) == Err(StatusError(reply.status, reply.reasonPhrase, reply.body))
  {
  }

  /** A success is exactly a 2xx response whose body decoded, and it carries that value. */
  lemma ReceiveOk<T>(reply: Reply<T>)
    ensures Receive(reply).Ok? <==> reply.Received? && IsSuccess(reply.status) && reply.decoded.Ok?
    ensures Receive(reply).Ok? ==> Receive(reply).value == reply.decoded.value
  {
  }

  // ----- symbol universe -----

  /** An item is tradable when it has a name and is not flagged delisted. */
  predicate Listed(item: UniverseItem) {
    item.name != [] && !item.isDelisted
  }

  /** The names of the listed items, in their original order. */
  function FilterUniverse(items: seq<UniverseItem>): (names: seq<string>)
    ensures |names| <= |items|
    ensures forall i :: 0 <= i < |names| ==> names[i] != []
    decreases |items|
  {
    if items == [] then []
    else (if Listed(items[0]) then [items[0].name] else []) + FilterUniverse(items[1..])
  }

  /** The filter works item by item: it distributes over concatenation, so order is kept. */
  lemma {:induction false} FilterAppend(a: seq<UniverseItem>, b: seq<UniverseItem>)
    ensures FilterUniverse(a + b) == FilterUniverse(a) + FilterUniverse(b)
    decreases |a|
  {
    if a == [] {
      assert a + b == b;
    } else {
      assert (a + b)[0] == a[0];
      assert (a + b)[1..] == a[1..] + b;
      FilterAppend(a[1..], b);
    }
  }

  /** A name is kept if and only if some listed item carries it. */
  lemma {:induction false} FilterMembership(items: seq<UniverseItem>, name: string)
    ensures name in FilterUniverse(items) <==>
      exists i :: 0 <= i < |items| && Listed(items[i]) && items[i].name == name
    decreases |items|
  {
    if items != [] {
      FilterMembership(items[1..], name);
      if name in FilterUniverse(items[1..]) {
        var i :| 0 <= i < |items[1..]| && Listed(items[1..][i]) && items[1..][i].name == name;
        assert items[i + 1] == items[1..][i];
      }
      if exists i :: 0 <= i < |items| && Listed(items[i]) && items[i].name == name {
        var i :| 0 <= i < |items| && Listed(items[i]) && items[i].name == name;
        if i > 0 {
          assert items[1..][i - 1] == items[i];
        }
      }
    }
  }

  /** `fetch_perpetual_symbols` on a given reply. */
  function FetchPerpetualSymbols(reply: Reply<MetaResponse>): (r: Result<seq<string>, string>)
    ensures r.Ok? <==> reply.Received? && IsSuccess(reply.status) && reply.decoded.Ok?
    ensures r.Ok? ==> r.value == FilterUniverse(reply.decoded.value.universe)
  {
    match Receive(reply)
    case Ok(meta) => Ok(FilterUniverse(meta.universe))
    case Err(e) => Err(e)
  }

  // ----- candles -----

  function ToCandle(rc: RawCandle): Candle {
    Candle(rc.t, rc.o, rc.h, rc.l, rc.c, rc.v)
  }

  /** Field-by-field conversion of the upstream's candles, one for one and in order. */
  function MapCandles(raw: seq<RawCandle>): (candles: seq<Candle>)
    ensures |candles| == |raw|
    ensures forall i :: 0 <= i < |raw| ==>
      && candles[i].timestamp == raw[i].t
      && candles[i].open == raw[i].o && candles[i].high == raw[i].h
      && candles[i].low == raw[i].l && candles[i].close == raw[i].c
      && candles[i].volume == raw[i].v
    decreases |raw|
  {
    if raw == [] then [] else [ToCandle(raw[0])] + MapCandles(raw[1..])
  }

  /** `fetch_candles` on a given reply. */
  function FetchCandles(reply: Reply<seq<RawCandle>>): (r: Result<seq<Candle>, string>)
    ensures r.Ok? <==> reply.Received? && IsSuccess(reply.status) && reply.decoded.Ok?
    ensures r.Ok? ==> r.value == MapCandles(reply.decoded.value)
  {
    match Receive(reply)
    case Ok(raw) => Ok(MapCandles(raw))
    case Err(e) => Err(e)
  }

  // ----- retry with exponential backoff -----

  /**
   * The upstream's answer to attempt `k` (0-based) of a candle request; two
   * attempts of the same request may be answered differently.
   */
  type CandleFetch = (CandleRequest, nat) -> Reply<seq<RawCandle>>

  function Attempt(fetch: CandleFetch, req: CandleRequest, k: nat): Result<seq<Candle>, string> {
    FetchCandles(fetch(req, k))
  }

  /** `1 << k`. */
  function Pow2(k: nat): nat {
    if k == 0 then 1 else 2 * Pow2(k - 1)
  }

  /** The backoffs after failed attempts 0 .. k-1: 1, 2, 4, … seconds. */
  function Backoffs(k: nat): (waits: seq<nat>)
    ensures |waits| == k
  {
    if k == 0 then [] else Backoffs(k - 1) + [Pow2(k - 1)]
  }

  /** One backoff per failed attempt, the one after attempt j lasting 2^j seconds. */
  lemma {:induction false} BackoffsDouble(k: nat)
    ensures forall j :: 0 <= j < k ==> Backoffs(k)[j] == Pow2(j)
  {
    if k > 0 {
      BackoffsDouble(k - 1);
    }
  }

  function Sum(s: seq<nat>): nat
    decreases |s|
  {
    if s == [] then 0 else Sum(s[..|s| - 1]) + s[|s| - 1]
  }

  /** Waiting after each of the first k failures costs 2^k − 1 seconds in all. */
  lemma {:induction false} BackoffTotal(k: nat)
    ensures Sum(Backoffs(k)) == Pow2(k) - 1
  {
    if k > 0 {
      BackoffTotal(k - 1);
      assert Backoffs(k)[..k - 1] == Backoffs(k - 1);
    }
  }

  /** The first attempt from `from` on that succeeds, or `maxRetries` if none does. */
  function FirstOk(fetch: CandleFetch, req: CandleRequest, maxRetries: nat, from: nat): (k: nat)
    requires from <= maxRetries
    ensures from <= k <= maxRetries
    ensures forall j :: from <= j < k ==> Attempt(fetch, req, j).Err?
    ensures k < maxRetries ==> Attempt(fetch, req, k).Ok?
    decreases maxRetries - from
  {
    if from == maxRetries || Attempt(fetch, req, from).Ok? then from
    else FirstOk(fetch, req, maxRetries, from + 1)
  }

  function RetryError(maxRetries: nat, lastErr: string): string {
    "Failed after " + Decimal.NatToDecimal(maxRetries) + " retries: " + lastErr
  }

  /** The error of the last attempt, or "" when no attempt was made. */
  function LastError(fetch: CandleFetch, req: CandleRequest, maxRetries: nat): string {
    if maxRetries == 0 then "" else
      match Attempt(fetch, req, maxRetries - 1)
      case Err(e) => e
      case Ok(_) => ""
  }

  /** What `fetch_candles_with_retry` returns, as a function of the attempts' outcomes. */
  function RetryResult(fetch: CandleFetch, req: CandleRequest, maxRetries: nat): Result<seq<Candle>, string> {
    var k := FirstOk(fetch, req, maxRetries, 0);
    if k < maxRetries then Attempt(fetch, req, k)
    else Err(RetryError(maxRetries, LastError(fetch, req, maxRetries)))
  }

  /** The retry succeeds if and only if one of the first `maxRetries` attempts does. */
  lemma RetrySucceedsIff(fetch: CandleFetch, req: CandleRequest, maxRetries: nat)
    ensures RetryResult(fetch, req, maxRetries).Ok? <==>
      exists k :: 0 <= k < maxRetries && Attempt(fetch, req, k).Ok?
  {
    var first := FirstOk(fetch, req, maxRetries, 0);
    if first < maxRetries {
      assert Attempt(fetch, req, first).Ok?;
    }
  }

  /** A success is the earliest successful attempt's candles, unchanged. */
  lemma RetryReturnsFirstSuccess(fetch: CandleFetch, req: CandleRequest, maxRetries: nat, k: nat)
    requires k < maxRetries && Attempt(fetch, req, k).Ok?
    requires forall j :: 0 <= j < k ==> Attempt(fetch, req, j).Err?
    ensures FirstOk(fetch, req, maxRetries, 0) == k
    ensures RetryResult(fetch, req, maxRetries) == Attempt(fetch, req, k)
  {
    var first := FirstOk(fetch, req, maxRetries, 0);
    assert !(first < k) && !(k < first);
  }

  /** When every attempt fails, the error names the retry count and the last attempt's error. */
  lemma RetryExhausted(fetch: CandleFetch, req: CandleRequest, maxRetries: nat)
    requires forall j :: 0 <= j < maxRetries ==> Attempt(fetch, req, j).Err?
    ensures RetryResult(fetch, req, maxRetries) ==
      Err(RetryError(maxRetries, if maxRetries == 0 then "" else Attempt(fetch, req, maxRetries - 1).error))
  {
    var first := FirstOk(fetch, req, maxRetries, 0);
  }

  /**
   * `fetch_candles_with_retry`: up to `maxRetries` attempts, returning the first
   * success at once; after failed attempt k it sleeps `1 << k` seconds unless k
   * is the final attempt. `calls` logs the attempt number of each request
   * sent, `attempts` is how many were sent, and `backoffSecs` logs the sleeps.
   */
  method FetchCandlesWithRetry(fetch: CandleFetch, req: CandleRequest, maxRetries: nat)
    returns (r: Result<seq<Candle>, string>, ghost attempts: nat, ghost backoffSecs: seq<nat>, ghost calls: seq<nat>)
    ensures r == RetryResult(fetch, req, maxRetries)
    ensures |calls| == attempts && forall j :: 0 <= j < |calls| ==> calls[j] == j
    ensures attempts <= maxRetries
    ensures r.Ok? ==> attempts == FirstOk(fetch, req, maxRetries, 0) + 1 && backoffSecs == Backoffs(attempts - 1)
    ensures r.Err? ==> attempts == maxRetries && backoffSecs == Backoffs(if maxRetries == 0 then 0 else maxRetries - 1)
  {
    var lastErr := "";
    backoffSecs, calls := [], [];
    var attempt: nat := 0;
    while attempt < maxRetries
      invariant attempt <= maxRetries
      invariant |calls| == attempt && forall j :: 0 <= j < attempt ==> calls[j] == j
      invariant forall j :: 0 <= j < attempt ==> Attempt(fetch, req, j).Err?
      invariant lastErr == (if attempt == 0 then "" else Attempt(fetch, req, attempt - 1).error)
      invariant backoffSecs == Backoffs(if attempt == maxRetries && attempt > 0 then attempt - 1 else attempt)
    {
      calls := calls + [attempt];
      match FetchCandles(fetch(req, attempt))
      case Ok(candles) =>
        RetryReturnsFirstSuccess(fetch, req, maxRetries, attempt);
        r, attempts := Ok(candles), |calls|;
        return;
      case Err(e) =>
        lastErr := e;
        if attempt < maxRetries - 1 {
          backoffSecs := backoffSecs + [Pow2(attempt)];
        }
      attempt := attempt + 1;
    }
    RetryExhausted(fetch, req, maxRetries);
    r, attempts := Err(RetryError(maxRetries, lastErr)), |calls|;
  }

  /** An attempt whose request could not be sent fails with the send error's text. */
  lemma SendFailureReported(fetch: CandleFetch, req: CandleRequest, k: nat)
    requires fetch(req, k).SendFailed?
    ensures Attempt(fetch, req, k) == Err("Failed to send request: " + fetch(req, k).reason)
  {
  }

  /** The exhaustion error of the candle task's budget of 3. */
  lemma RetryErrorOfThree(lastErr: string)
    ensures RetryError(3, lastErr) == "Failed after 3 retries: " + lastErr
  {
    assert Decimal.NatToDecimal(3) == "3";
  }

  /** With the caller's budget of 3 and an upstream that always fails: 1 s then 2 s, and "3" in the error. */
  method RetryThreeAlwaysFailing(fetch: CandleFetch, req: CandleRequest)
    returns (r: Result<seq<Candle>, string>, ghost attempts: nat, ghost backoffSecs: seq<nat>, ghost calls: seq<nat>)
    requires forall k: nat :: fetch(req, k).SendFailed?
    ensures attempts == 3 && calls == [0, 1, 2] && backoffSecs == [1, 2] && Sum(backoffSecs) == 3
    ensures r == Err("Failed after 3 retries: " + ("Failed to send request: " + fetch(req, 2).reason))
  {
    SendFailureReported(fetch, req, 0);
    SendFailureReported(fetch, req, 1);
    SendFailureReported(fetch, req, 2);
    r, attempts, backoffSecs, calls := FetchCandlesWithRetry(fetch, req, 3);
    assert Backoffs(2) == [1, 2];
    BackoffTotal(2);
    RetryExhausted(fetch, req, 3);
    RetryErrorOfThree(Attempt(fetch, req, 2).error);
  }
}

=== FILE: decimal.dfy ===
/**
 * Decimal rendering of integers, as Rust's `{}` formatting prints an
 * `i64`, `u32` or `usize`: an optional leading '-', then the digits of the
 * magnitude with no leading zero. The parser is the partner used to state
 * that rendering loses nothing.
 */
module Decimal {

  import opened Wrappers

  predicate IsDigit(c: char) {
    '0' <= c <= '9'
  }

  predicate AllDigits(s: string) {
    forall i :: 0 <= i < |s| ==> IsDigit(s[i])
  }

  function DigitChar(d: nat): (c: char)
    requires d < 10
    ensures IsDigit(c)
  {
    (('0' as int) + d) as char
  }

  function DigitValue(c: char): nat
    requires IsDigit(c)
  {
    (c as int) - ('0' as int)
  }

  /** The decimal digits of `n`, most significant first. */
  function NatToDecimal(n: nat): (s: string)
    ensures |s| >= 1 && AllDigits(s)
    ensures s[0] == '0' ==> n == 0
    decreases n
  {
    if n < 10 then [DigitChar(n)] else NatToDecimal(n / 10) + [DigitChar(n % 10)]
  }

  /** Rust's Display of a signed integer. */
  function IntToDecimal(i: int): (s: string)
    ensures |s| >= 1
    ensures i < 0 <==> s[0] == '-'
    ensures forall k :: 0 < k < |s| ==> IsDigit(s[k])
    ensures i >= 0 ==> IsDigit(s[0])
  {
    if i < 0 then "-" + NatToDecimal(-i) else NatToDecimal(i)
  }

  /** The value of a string of decimal digits. */
  function DigitsValue(s: string): nat
    requires AllDigits(s)
    decreases |s|
  {
    if s == [] then 0 else DigitsValue(s[..|s| - 1]) * 10 + DigitValue(s[|s| - 1])
  }

  /** Reads back what IntToDecimal prints; None for anything else. */
  function ParseInt(s: string): Option<int> {
    if |s| >= 2 && s[0] == '-' && AllDigits(s[1..]) then Some(-(DigitsValue(s[1..]) as int))
    else if |s| >= 1 && AllDigits(s) then Some(DigitsValue(s))
    else None
  }

  lemma {:induction false} NatRoundTrip(n: nat)
    ensures DigitsValue(NatToDecimal(n)) == n
    decreases n
  {
    if n >= 10 {
      var s := NatToDecimal(n);
      NatRoundTrip(n / 10);
      assert s[..|s| - 1] == NatToDecimal(n / 10);
      assert s[|s| - 1] == DigitChar(n % 10);
    }
  }

  /** Printing an integer and reading it back gives the integer. */
  lemma IntRoundTrip(i: int)
    ensures ParseInt(IntToDecimal(i)) == Some(i)
  {
    var s := IntToDecimal(i);
    if i < 0 {
      assert s[1..] == NatToDecimal(-i);
      NatRoundTrip(-i);
    } else {
      NatRoundTrip(i);
    }
  }
}

=== FILE: types.dfy ===
/**
 * The record shapes of src/types.rs, without their JSON (de)serialisation.
 * Time is an integer count of milliseconds since the Unix epoch; prices are
 * an abstract type, so no floating-point arithmetic enters the model.
 */
module Types {

  /** An f64 price or volume; nothing in the core computes with one. */
  type Price(==)

  /** One OHLCV bar; `timestamp` is the bucket's open time in milliseconds. */
  datatype Candle = Candle(
    timestamp: int,
    open: Price,
    high: Price,
    low: Price,
    close: Price,
    volume: Price)

  /** What the store keeps for one symbol. */
  datatype CacheEntry = CacheEntry(symbol: string, candles: seq<Candle>, lastUpdate: int)

  /** One candle as the upstream API sends it (`n` is the trade count). */
  datatype RawCandle = RawCandle(t: int, o: Price, h: Price, l: Price, c: Price, v: Price, n: int)

  /** One item of the `universe` array of the upstream's meta response. */
  datatype UniverseItem = UniverseItem(name: string, isDelisted: bool)

  datatype MetaResponse = MetaResponse(universe: seq<UniverseItem>)

  /** The fields of a candle-snapshot request. */
  datatype CandleRequest = CandleRequest(coin: string, interval: string, startTime: int, endTime: int)
}

=== FILE: workers.dfy ===
/**
 * The two background tasks of src/workers.rs, one iteration each. Each task's
 * `loop` runs forever; here a discovery step and a candle cycle are methods on
 * the store, and `RunDiscovery` runs a finite prefix of discovery iterations.
 * Within a batch the source fans out one task per symbol and joins them; the
 * model processes the batch's symbols one after the other, and write k of a
 * cycle (in list order) happens at clock reading `writeClock(k)`.
 */
module Workers {

  import opened Wrappers
  import opened Types
  import opened Clients
  import opened Store

  const BatchSize: nat := 10
  const BatchDelayMs: nat := 200
  /** The pause when no symbols are published yet. */
  const EmptyListSleepMs: nat := 5000
  /** The retry budget the candle task passes to the client. */
  const MaxRetries: nat := 3
  const MsPerDay: int := 24 * 60 * 60 * 1000

  // ----- time window -----

  datatype Window = Window(startTime: int, endTime: int)

  /**
   * The cycle's window from two clock readings: `endClock` for the end and
   * `startClock` (read just after) for the start, `candleDays` days earlier.
   */
  function LookbackWindow(endClock: int, startClock: int, candleDays: int): (w: Window)
    ensures w.endTime == endClock
    ensures w.endTime - w.startTime == candleDays * 86_400_000 + (endClock - startClock)
  {
    Window(startClock - candleDays * MsPerDay, endClock)
  }

  // ----- batching -----

  /** `(n + batch_size - 1) / batch_size`. */
  function TotalBatches(n: nat): nat {
    (n + BatchSize - 1) / BatchSize
  }

  /** The store's last update after the first `done` writes of a cycle that found `prev`. */
  function LastStamp(prev: Option<int>, writeClock: nat -> int, done: nat): Option<int> {
    if done == 0 then prev else Some(writeClock(done - 1))
  }

  function Min(a: int, b: int): int {
    if a <= b then a else b
  }

  /** `slice::chunks(batch_size)`: consecutive pieces of ten, the last possibly shorter. */
  function Batches<T>(s: seq<T>): (r: seq<seq<T>>)
    ensures |r| == TotalBatches(|s|)
    decreases |s|
  {
    if s == [] then []
    else if |s| <= BatchSize then [s]
    else [s[..BatchSize]] + Batches(s[BatchSize..])
  }

  function Flatten<T>(ss: seq<seq<T>>): seq<T>
    decreases |ss|
  {
    if ss == [] then [] else ss[0] + Flatten(ss[1..])
  }

  /** Batch i is the slice from 10 * i up to ten further on, or to the end of the list. */
  lemma {:induction false} BatchesShape<T>(s: seq<T>)
    ensures forall i :: 0 <= i < |Batches(s)| ==> Batches(s)[i] == s[i * BatchSize .. Min(i * BatchSize + BatchSize, |s|)]
    decreases |s|
  {
    if |s| > BatchSize {
      var t := s[BatchSize..];
      BatchesShape(t);
      forall i | 0 <= i < |Batches(s)|
        ensures Batches(s)[i] == s[i * BatchSize .. Min(i * BatchSize + BatchSize, |s|)]
      {
        if i == 0 {
          assert Batches(s)[0] == s[..BatchSize];
        } else {
          var j := i - 1;
          var lo, hi := j * BatchSize, Min(j * BatchSize + BatchSize, |t|);
          assert Batches(s)[i] == Batches(t)[j] == t[lo .. hi];
          assert t[lo .. hi] == s[lo + BatchSize .. hi + BatchSize];
          assert lo + BatchSize == i * BatchSize;
          assert hi + BatchSize == Min(i * BatchSize + BatchSize, |s|);
        }
      }
    }
  }

  /** Every batch is non-empty and at most ten long, and all but the last are exactly ten. */
  lemma BatchSizes<T>(s: seq<T>)
    ensures forall i :: 0 <= i < |Batches(s)| ==> 0 < |Batches(s)[i]| <= BatchSize
    ensures forall i :: 0 <= i < |Batches(s)| - 1 ==> |Batches(s)[i]| == BatchSize
  {
    BatchesShape(s);
  }

  /** The batches, put back together, are the list itself. */
  lemma {:induction false} BatchesPartition<T>(s: seq<T>)
    ensures Flatten(Batches(s)) == s
    decreases |s|
  {
    if s == [] {
    } else if |s| <= BatchSize {
      assert Flatten([s]) == s + Flatten([s][1..]);
    } else {
      var r := Batches(s);
      BatchesPartition(s[BatchSize..]);
      assert r[1..] == Batches(s[BatchSize..]);
      assert s == s[..BatchSize] + s[BatchSize..];
    }
  }

  /** Batch b, when there is one, is the slice between the b-th and the (b+1)-th multiple of ten, capped at the end. */
  lemma BatchAt<T>(s: seq<T>, b: nat)
    requires b < |Batches(s)|
    ensures Min(b * BatchSize, |s|) < Min((b + 1) * BatchSize, |s|)
    ensures Batches(s)[b] == s[Min(b * BatchSize, |s|) .. Min((b + 1) * BatchSize, |s|)]
  {
    BatchesShape(s);
    assert (b + 1) * BatchSize == b * BatchSize + BatchSize;
  }

  /** The batches reach the end of the list. */
  lemma BatchesCover(n: nat)
    ensures Min(TotalBatches(n) * BatchSize, n) == n
  {
  }

  /** The pauses between batches: one after each batch but the last. */
  function InterBatchPauses(batches: nat): seq<nat> {
    if batches <= 1 then [] else InterBatchPauses(batches - 1) + [BatchDelayMs]
  }

  /** One pause fewer than there are batches, each of them the fixed delay. */
  lemma {:induction false} InterBatchPausesShape(batches: nat)
    ensures |InterBatchPauses(batches)| == if batches == 0 then 0 else batches - 1
    ensures forall i :: 0 <= i < |InterBatchPauses(batches)| ==> InterBatchPauses(batches)[i] == BatchDelayMs
  {
    if batches > 1 {
      InterBatchPausesShape(batches - 1);
    }
  }

  /** A batch that is not the last adds one pause. */
  lemma PauseStep(b: nat)
    ensures InterBatchPauses(b + 2) == InterBatchPauses(b + 1) + [BatchDelayMs]
  {
  }

  // ----- one candle refresh cycle -----

  function RequestFor(symbol: string, interval: string, w: Window): CandleRequest {
    CandleRequest(symbol, interval, w.startTime, w.endTime)
  }

  /**
   * The upstream's answers during one cycle: `fetch(p)` answers the attempts of
   * the retried fetch started for position p of the cycle's list. Two positions
   * holding the same name are two independent calls and may be answered differently.
   */
  type CycleFetch = nat -> CandleFetch

  /** The outcome of the retried fetch started for each position of a cycle's list. */
  type Outcomes = nat -> Result<seq<Candle>, string>

  /** The retried fetch of one symbol, answered by `call`. */
  function SymbolOutcome(call: CandleFetch, interval: string, w: Window, symbol: string): Result<seq<Candle>, string> {
    RetryResult(call, RequestFor(symbol, interval, w), MaxRetries)
  }

  /** The fetched candles on success; an explicit empty series once retries are exhausted. */
  function StoredCandles(r: Result<seq<Candle>, string>): seq<Candle> {
    match r
    case Ok(candles) => candles
    case Err(_) => []
  }

  /** The per-position outcomes of a cycle over `symbols` and the window `w`. */
  function CycleOutcome(fetch: CycleFetch, interval: string, w: Window, symbols: seq<string>): Outcomes {
    (p: nat) => if p < |symbols| then SymbolOutcome(fetch(p), interval, w, symbols[p]) else Err("")
  }

  /**
   * The table after writing the first `n` symbols of `syms` in order, position
   * k per `outcome(k)` and stamped `writeClock(k)`.
   */
  function Written(data: map<string, CacheEntry>, syms: seq<string>, n: nat, outcome: Outcomes,
                   writeClock: nat -> int): map<string, CacheEntry>
    requires n <= |syms|
  {
    if n == 0 then data
    else Written(data, syms, n - 1, outcome, writeClock)[syms[n - 1] := CacheEntry(syms[n - 1], StoredCandles(outcome(n - 1)), writeClock(n - 1))]
  }

  /**
   * After a cycle every listed symbol has an entry under its own name, written
   * by one of its positions in the list: that position's fetched candles
   * (possibly []) and that write's stamp.
   */
  lemma {:induction false} WrittenListed(data: map<string, CacheEntry>, syms: seq<string>, n: nat,
                                         outcome: Outcomes, writeClock: nat -> int, j: nat)
    requires j < n <= |syms|
    ensures syms[j] in Written(data, syms, n, outcome, writeClock)
    ensures var e := Written(data, syms, n, outcome, writeClock)[syms[j]];
      && e.symbol == syms[j]
      && exists i :: && j <= i < n && syms[i] == syms[j]
                     && e.candles == StoredCandles(outcome(i)) && e.lastUpdate == writeClock(i)
  {
    if syms[n - 1] == syms[j] {
      var i := n - 1;
      assert Written(data, syms, n, outcome, writeClock)[syms[j]] == CacheEntry(syms[j], StoredCandles(outcome(i)), writeClock(i));
    } else {
      WrittenListed(data, syms, n - 1, outcome, writeClock, j);
    }
  }

  /** Symbols not among the first `n` keep exactly what they had, or stay absent. */
  lemma {:induction false} WrittenOthers(data: map<string, CacheEntry>, syms: seq<string>, n: nat,
                                         outcome: Outcomes, writeClock: nat -> int, s: string)
    requires n <= |syms| && s !in syms[..n]
    ensures s in Written(data, syms, n, outcome, writeClock) <==> s in data
    ensures s in data ==> Written(data, syms, n, outcome, writeClock)[s] == data[s]
  {
    if n > 0 {
      assert syms[n - 1] == syms[..n][n - 1];
      assert s !in syms[..n - 1] by {
        assert forall i :: 0 <= i < n - 1 ==> syms[..n - 1][i] == syms[..n][i];
      }
      WrittenOthers(data, syms, n - 1, outcome, writeClock, s);
    }
  }

  /** A cycle adds exactly the listed symbols to the table's keys and removes none. */
  lemma {:induction false} WrittenKeys(data: map<string, CacheEntry>, syms: seq<string>, n: nat,
                                       outcome: Outcomes, writeClock: nat -> int)
    requires n <= |syms|
    ensures Written(data, syms, n, outcome, writeClock).Keys == data.Keys + set i | 0 <= i < n :: syms[i]
  {
    if n > 0 {
      WrittenKeys(data, syms, n - 1, outcome, writeClock);
      assert (set i | 0 <= i < n :: syms[i]) == (set i | 0 <= i < n - 1 :: syms[i]) + {syms[n - 1]};
    }
  }

  /** How many of the fetches for the first `n` positions succeeded. */
  function SuccessCount(outcome: Outcomes, n: nat): (count: nat)
    ensures count <= n
  {
    if n == 0 then 0
    else SuccessCount(outcome, n - 1) + (if outcome(n - 1).Ok? then 1 else 0)
  }

  /** The count is all `n` exactly when every one of those fetches succeeded. */
  lemma {:induction false} SuccessCountAll(outcome: Outcomes, n: nat)
    ensures SuccessCount(outcome, n) == n <==> forall j :: 0 <= j < n ==> outcome(j).Ok?
  {
    if n > 0 {
      SuccessCountAll(outcome, n - 1);
    }
  }

  /** The count is zero exactly when every one of those fetches failed. */
  lemma {:induction false} SuccessCountNone(outcome: Outcomes, n: nat)
    ensures SuccessCount(outcome, n) == 0 <==> forall j :: 0 <= j < n ==> outcome(j).Err?
  {
    if n > 0 {
      SuccessCountNone(outcome, n - 1);
    }
  }

  /** Eleven names with "A" first and last, so that its two positions fall in different batches. */
  const RepeatedAcrossBatches: seq<string> := ["A", "B", "C", "D", "E", "F", "G", "H", "I", "J", "A"]

  /**
   * A name listed twice is fetched twice. With its positions in two batches,
   * whose joins order the writes, a failed first fetch and a successful second
   * one leave the second's candles in the table, and the second adds one success.
   */
  lemma RepeatedSymbolFetchedTwice(data: map<string, CacheEntry>, outcome: Outcomes, writeClock: nat -> int)
    requires outcome(0).Err? && outcome(10).Ok?
    ensures var syms := RepeatedAcrossBatches;
      && Batches(syms) == [syms[..10], syms[10..]]
      && syms[0] == syms[10] == "A" && "A" !in syms[1..10]
    ensures SuccessCount(outcome, 1) == 0
    ensures SuccessCount(outcome, 11) == SuccessCount(outcome, 10) + 1
    ensures Written(data, RepeatedAcrossBatches, 11, outcome, writeClock)["A"] == CacheEntry("A", outcome(10).value, writeClock(10))
  {
    var syms := RepeatedAcrossBatches;
    BatchAt(syms, 0);
    BatchAt(syms, 1);
    assert syms[1..10] == ["B", "C", "D", "E", "F", "G", "H", "I", "J"];
  }

  /**
   * The body of the task spawned per symbol: fetch with retries, then write
   * the candles, or [] once retries are exhausted. `ok` is the task's Ok(()).
   */
  method RefreshSymbol(cache: Cache, call: CandleFetch, interval: string, w: Window, symbol: string, now: int)
    returns (ok: bool)
    requires cache.Valid()
    modifies cache
    ensures cache.Valid()
    ensures ok == SymbolOutcome(call, interval, w, symbol).Ok?
    ensures cache.data == old(cache.data)[symbol :=
      CacheEntry(symbol, StoredCandles(SymbolOutcome(call, interval, w, symbol)), now)]
    ensures cache.lastUpdate == Some(now)
    ensures cache.symbols == old(cache.symbols) && cache.symbolUpdate == old(cache.symbolUpdate)
  {
    var res, _, _, _ := FetchCandlesWithRetry(call, RequestFor(symbol, interval, w), MaxRetries);
    match res
    case Ok(candles) =>
      cache.Set(symbol, candles, now);
      ok := true;
    case Err(_) =>
      cache.Set(symbol, [], now);
      ok := false;
  }

  /** The outcomes a step is handed are those of the retried fetches over the window, position by position. */
  ghost predicate OutcomeOf(outcome: Outcomes, fetch: CycleFetch, interval: string, w: Window, symbols: seq<string>) {
    forall p {:trigger fetch(p)} :: 0 <= p < |symbols| ==> outcome(p) == SymbolOutcome(fetch(p), interval, w, symbols[p])
  }

  /** The step at position `pos` of the cycle's list, with the prefix before it written. */
  method RefreshAt(cache: Cache, fetch: CycleFetch, interval: string, window: Window, writeClock: nat -> int,
                   symbols: seq<string>, pos: nat,
                   ghost outcome: Outcomes, ghost data0: map<string, CacheEntry>, ghost prev0: Option<int>)
    returns (ok: bool)
    requires pos < |symbols| && OutcomeOf(outcome, fetch, interval, window, symbols)
    requires cache.Valid()
    requires cache.data == Written(data0, symbols, pos, outcome, writeClock)
    requires cache.lastUpdate == LastStamp(prev0, writeClock, pos)
    modifies cache
    ensures cache.Valid()
    ensures cache.data == Written(data0, symbols, pos + 1, outcome, writeClock)
    ensures cache.lastUpdate == LastStamp(prev0, writeClock, pos + 1)
    ensures cache.symbols == old(cache.symbols) && cache.symbolUpdate == old(cache.symbolUpdate)
    ensures SuccessCount(outcome, pos + 1) == SuccessCount(outcome, pos) + (if ok then 1 else 0)
  {
    var now := writeClock(pos);
    ok := RefreshSymbol(cache, fetch(pos), interval, window, symbols[pos], now);
  }

  /**
   * One batch: the symbols of `chunk`, which sit at positions lo .. lo+|chunk|
   * of the cycle's list, each refreshed in turn; returns how many succeeded.
   */
  method RefreshBatch(cache: Cache, fetch: CycleFetch, interval: string, window: Window, writeClock: nat -> int,
                      symbols: seq<string>, lo: nat, chunk: seq<string>,
                      ghost outcome: Outcomes, ghost data0: map<string, CacheEntry>, ghost prev0: Option<int>)
    returns (successes: nat)
    requires lo + |chunk| <= |symbols| && chunk == symbols[lo .. lo + |chunk|]
    requires OutcomeOf(outcome, fetch, interval, window, symbols)
    requires cache.Valid()
    requires cache.data == Written(data0, symbols, lo, outcome, writeClock)
    requires cache.lastUpdate == LastStamp(prev0, writeClock, lo)
    modifies cache
    ensures cache.Valid()
    ensures cache.data == Written(data0, symbols, lo + |chunk|, outcome, writeClock)
    ensures cache.lastUpdate == LastStamp(prev0, writeClock, lo + |chunk|)
    ensures cache.symbols == old(cache.symbols) && cache.symbolUpdate == old(cache.symbolUpdate)
    ensures SuccessCount(outcome, lo) + successes == SuccessCount(outcome, lo + |chunk|)
  {
    successes := 0;
    var pos := lo;
    while pos < lo + |chunk|
      invariant lo <= pos <= lo + |chunk|
      invariant cache.Valid()
      invariant cache.symbols == old(cache.symbols) && cache.symbolUpdate == old(cache.symbolUpdate)
      invariant cache.data == Written(data0, symbols, pos, outcome, writeClock)
      invariant cache.lastUpdate == LastStamp(prev0, writeClock, pos)
      invariant SuccessCount(outcome, lo) + successes == SuccessCount(outcome, pos)
    {
      var ok := RefreshAt(cache, fetch, interval, window, writeClock, symbols, pos, outcome, data0, prev0);
      if ok {
        successes := successes + 1;
      }
      pos := pos + 1;
    }
  }

  /**
   * Batch `b` of `batches`, the batches of the cycle's list, with the first
   * `done` symbols (those of the earlier batches) already written; then the
   * pause, unless it was the last batch.
   */
  method StepBatch(cache: Cache, fetch: CycleFetch, interval: string, window: Window, writeClock: nat -> int,
                   symbols: seq<string>, batches: seq<seq<string>>, b: nat, done: nat, count: nat,
                   ghost outcome: Outcomes, ghost data0: map<string, CacheEntry>,
                   ghost prev0: Option<int>, ghost sleeps: seq<nat>)
    returns (done': nat, count': nat, ghost sleeps': seq<nat>)
    requires batches == Batches(symbols) && b < |batches| && done == Min(b * BatchSize, |symbols|)
    requires OutcomeOf(outcome, fetch, interval, window, symbols)
    requires cache.Valid()
    requires cache.data == Written(data0, symbols, done, outcome, writeClock)
    requires cache.lastUpdate == LastStamp(prev0, writeClock, done)
    requires count == SuccessCount(outcome, done)
    requires sleeps == InterBatchPauses(b + 1)
    modifies cache
    ensures done' == Min((b + 1) * BatchSize, |symbols|)
    ensures cache.Valid()
    ensures cache.symbols == old(cache.symbols) && cache.symbolUpdate == old(cache.symbolUpdate)
    ensures cache.data == Written(data0, symbols, done', outcome, writeClock)
    ensures cache.lastUpdate == LastStamp(prev0, writeClock, done')
    ensures count' == SuccessCount(outcome, done')
    ensures sleeps' == InterBatchPauses(if b + 1 < |batches| then b + 2 else b + 1)
  {
    BatchAt(symbols, b);
    var chunk := batches[b];
    var successes := RefreshBatch(cache, fetch, interval, window, writeClock, symbols, done, chunk, outcome, data0, prev0);
    done', count' := done + |chunk|, count + successes;
    var currentBatch := b + 1;
    sleeps' := sleeps;
    if currentBatch < TotalBatches(|symbols|) {
      PauseStep(b);
      sleeps' := sleeps' + [BatchDelayMs];
    }
  }

  /**
   * The batches of a non-empty list, run one after another with a pause
   * between consecutive batches; returns the summed success count.
   */
  method RunBatches(cache: Cache, fetch: CycleFetch, interval: string, window: Window, writeClock: nat -> int,
                    symbols: seq<string>, ghost outcome: Outcomes)
    returns (successCount: nat, ghost sleepsMs: seq<nat>)
    requires symbols != [] && OutcomeOf(outcome, fetch, interval, window, symbols)
    requires cache.Valid() && cache.symbols == symbols
    modifies cache
    ensures cache.Valid()
    ensures cache.symbols == old(cache.symbols) && cache.symbolUpdate == old(cache.symbolUpdate)
    ensures cache.data == Written(old(cache.data), symbols, |symbols|, outcome, writeClock)
    ensures cache.lastUpdate == Some(writeClock(|symbols| - 1))
    ensures successCount == SuccessCount(outcome, |symbols|)
    ensures sleepsMs == InterBatchPauses(TotalBatches(|symbols|))
  {
    var totalBatches := TotalBatches(|symbols|);
    var batches := Batches(symbols);
    successCount, sleepsMs := 0, [];
    ghost var data0 := cache.data;
    ghost var prev0 := cache.lastUpdate;
    var done: nat := 0;
    var b := 0;
    while b < totalBatches
      invariant |batches| == totalBatches
      invariant 0 <= b <= totalBatches && done == Min(b * BatchSize, |symbols|)
      invariant cache.Valid()
      invariant cache.symbols == symbols && cache.symbolUpdate == old(cache.symbolUpdate)
      invariant cache.data == Written(data0, symbols, done, outcome, writeClock)
      invariant cache.lastUpdate == LastStamp(prev0, writeClock, done)
      invariant successCount == SuccessCount(outcome, done)
      invariant sleepsMs == InterBatchPauses(if b < totalBatches then b + 1 else b)
    {
      done, successCount, sleepsMs := StepBatch(cache, fetch, interval, window, writeClock, symbols, batches, b,
                                                done, successCount, outcome, data0, prev0, sleepsMs);
      b := b + 1;
    }
    BatchesCover(|symbols|);
  }

  /**
   * One pass of `candle_fetcher_task`'s loop. `sleepsMs` logs the task's own
   * sleeps; the retry backoffs are slept inside the spawned tasks and are not
   * part of this log (`RefreshSymbol` drops the client's backoff log).
   * `window` is the look-back window, which an empty list skips computing.
   */
  method CandleCycle(cache: Cache, fetch: CycleFetch, interval: string, candleDays: int,
                     endClock: int, startClock: int, writeClock: nat -> int, refreshMs: nat)
    returns (successCount: nat, window: Option<Window>, ghost sleepsMs: seq<nat>)
    requires cache.Valid()
    modifies cache
    ensures cache.Valid()
    ensures cache.symbols == old(cache.symbols) && cache.symbolUpdate == old(cache.symbolUpdate)
    ensures old(cache.symbols) == [] ==>
      && cache.data == old(cache.data) && cache.lastUpdate == old(cache.lastUpdate)
      && successCount == 0 && sleepsMs == [EmptyListSleepMs] && window == None
    ensures old(cache.symbols) != [] ==>
      var syms := old(cache.symbols);
      var w := LookbackWindow(endClock, startClock, candleDays);
      && window == Some(w)
      && cache.data == Written(old(cache.data), syms, |syms|, CycleOutcome(fetch, interval, w, syms), writeClock)
      && cache.lastUpdate == Some(writeClock(|syms| - 1))
      && successCount == SuccessCount(CycleOutcome(fetch, interval, w, syms), |syms|)
      && sleepsMs == InterBatchPauses(TotalBatches(|syms|)) + [refreshMs]
  {
    var symbols := cache.GetSymbols();
    if symbols == [] {
      successCount, window, sleepsMs := 0, None, [EmptyListSleepMs];
      return;
    }
    var w := LookbackWindow(endClock, startClock, candleDays);
    window := Some(w);
    ghost var outcome := CycleOutcome(fetch, interval, w, symbols);
    assert OutcomeOf(outcome, fetch, interval, w, symbols);
    successCount, sleepsMs := RunBatches(cache, fetch, interval, w, writeClock, symbols, outcome);
    sleepsMs := sleepsMs + [refreshMs];
  }

  // ----- symbol discovery -----

  /** What one discovery iteration publishes to the store, if anything. */
  function Published(cached: seq<string>, fetched: Result<seq<string>, string>): Option<seq<string>> {
    match fetched
    case Ok(syms) => if syms == [] then None else Some(syms)
    case Err(_) => if cached == [] then None else Some(cached)
  }

  /** The task's `cached_symbols` after one iteration. */
  function NextCached(cached: seq<string>, fetched: Result<seq<string>, string>): seq<string> {
    match fetched
    case Ok(syms) => if syms == [] then cached else syms
    case Err(_) => cached
  }

  predicate GoodFetch(fetched: Result<seq<string>, string>) {
    fetched.Ok? && fetched.value != []
  }

  /** The most recent non-empty successful discovery result, or [] if none. */
  function LastGood(history: seq<Result<seq<string>, string>>): seq<string>
    decreases |history|
  {
    if history == [] then []
    else if GoodFetch(history[|history| - 1]) then history[|history| - 1].value
    else LastGood(history[..|history| - 1])
  }

  /** Only non-empty lists are ever published, and publishing never changes content on failure. */
  lemma PublishedShape(cached: seq<string>, fetched: Result<seq<string>, string>)
    ensures Published(cached, fetched).Some? ==> Published(cached, fetched).value != []
    ensures fetched.Err? ==> (Published(cached, fetched).Some? <==> cached != [])
    ensures Published(cached, fetched).Some? ==> Published(cached, fetched).value == NextCached(cached, fetched)
  {
  }

  /** `LastGood` is empty, or the value of a good fetch after which no good fetch came. */
  lemma {:induction false} LastGoodIsLatest(history: seq<Result<seq<string>, string>>)
    ensures LastGood(history) == [] ==> forall i :: 0 <= i < |history| ==> !GoodFetch(history[i])
    ensures LastGood(history) != [] ==>
      exists i :: (0 <= i < |history| && history[i] == Ok(LastGood(history))
                   && forall j :: i < j < |history| ==> !GoodFetch(history[j]))
    decreases |history|
  {
    if history != [] {
      var k := |history| - 1;
      var prefix := history[..k];
      LastGoodIsLatest(prefix);
      if GoodFetch(history[k]) {
        assert history[k] == Ok(LastGood(history));
      } else {
        assert LastGood(history) == LastGood(prefix);
        assert forall i :: 0 <= i < k ==> prefix[i] == history[i];
        if LastGood(history) != [] {
          var i :| 0 <= i < k && prefix[i] == Ok(LastGood(prefix)) && forall j :: i < j < k ==> !GoodFetch(prefix[j]);
          assert history[i] == Ok(LastGood(history));
        }
      }
    }
  }

  /** The list discovery iteration k of a run hands to `set_symbols`, if any. */
  function PublishedAt(history: seq<Result<seq<string>, string>>, k: nat): Option<seq<string>>
    requires k < |history|
  {
    Published(LastGood(history[..k]), history[k])
  }

  /** The iterations of a run that call `set_symbols`, in order, each with the list it passes. */
  function PublishLog(history: seq<Result<seq<string>, string>>): seq<(nat, seq<string>)>
    decreases |history|
  {
    if history == [] then []
    else
      var k := |history| - 1;
      match PublishedAt(history, k)
      case Some(list) => PublishLog(history[..k]) + [(k, list)]
      case None => PublishLog(history[..k])
  }

  /** What an iteration publishes depends only on the iterations up to it. */
  lemma PublishedAtPrefix(history: seq<Result<seq<string>, string>>, n: nat, k: nat)
    requires k < n <= |history|
    ensures PublishedAt(history[..n], k) == PublishedAt(history, k)
  {
    assert history[..n][..k] == history[..k];
  }

  /** The log holds exactly the iterations that publish, in increasing order, with what each publishes. */
  lemma {:induction false} PublishLogExact(history: seq<Result<seq<string>, string>>)
    ensures forall i :: 0 <= i < |PublishLog(history)| ==>
      PublishLog(history)[i].0 < |history| && PublishedAt(history, PublishLog(history)[i].0) == Some(PublishLog(history)[i].1)
    ensures forall i, j :: 0 <= i < j < |PublishLog(history)| ==> PublishLog(history)[i].0 < PublishLog(history)[j].0
    ensures forall k :: 0 <= k < |history| && PublishedAt(history, k).Some? ==>
      exists i :: 0 <= i < |PublishLog(history)| && PublishLog(history)[i].0 == k
    decreases |history|
  {
    if history != [] {
      var k := |history| - 1;
      var prefix := history[..k];
      var prior := PublishLog(prefix);
      var log := PublishLog(history);
      PublishLogExact(prefix);
      forall i | 0 <= i < |prior|
        ensures PublishedAt(history, prior[i].0) == Some(prior[i].1)
      {
        PublishedAtPrefix(history, k, prior[i].0);
      }
      assert forall i :: 0 <= i < |prior| ==> log[i] == prior[i];
      assert |log| == |prior| || (|log| == |prior| + 1 && log[|prior|] == (k, PublishedAt(history, k).value));
      forall j | 0 <= j < |history| && PublishedAt(history, j).Some?
        ensures exists i :: 0 <= i < |log| && log[i].0 == j
      {
        if j == k {
          assert log[|prior|].0 == k;
        } else {
          PublishedAtPrefix(history, k, j);
          var i :| 0 <= i < |prior| && prior[i].0 == j;
          assert log[i].0 == j;
        }
      }
    }
  }

  /** A run publishes something exactly when it saw a good list, and the last list it publishes is the latest good one. */
  lemma {:induction false} PublishLogLast(history: seq<Result<seq<string>, string>>)
    ensures PublishLog(history) == [] <==> LastGood(history) == []
    ensures PublishLog(history) != [] ==> PublishLog(history)[|PublishLog(history)| - 1].1 == LastGood(history)
    decreases |history|
  {
    if history != [] {
      PublishLogLast(history[..|history| - 1]);
    }
  }

  /**
   * One pass of `symbol_fetcher_task`'s loop; returns the new `cached_symbols`
   * and, as `pub`, the list it handed to `set_symbols`, if any.
   */
  method DiscoveryStep(cache: Cache, cached: seq<string>, fetched: Result<seq<string>, string>, now: int)
    returns (next: seq<string>, ghost pub: Option<seq<string>>)
    requires cache.Valid()
    modifies cache
    ensures cache.Valid()
    ensures next == NextCached(cached, fetched)
    ensures pub == Published(cached, fetched)
    ensures Published(cached, fetched).Some? ==>
      cache.symbols == Published(cached, fetched).value && cache.symbolUpdate == Some(now)
    ensures Published(cached, fetched).None? ==>
      cache.symbols == old(cache.symbols) && cache.symbolUpdate == old(cache.symbolUpdate)
    ensures cache.data == old(cache.data) && cache.lastUpdate == old(cache.lastUpdate)
    ensures cache.written == old(cache.written) && cache.lastWritten == old(cache.lastWritten)
  {
    next, pub := cached, None;
    match fetched
    case Ok(symbols) =>
      if symbols != [] {
        cache.SetSymbols(symbols, now);
        next, pub := symbols, Some(symbols);
      }
    case Err(_) =>
      if cached != [] {
        cache.SetSymbols(cached, now);
        pub := Some(cached);
      }
  }

  /** A good list, then a failure, then an empty list: the failure republishes, the empty list does not. */
  lemma DiscoveryStampExample()
    ensures PublishLog([Ok(["A"]), Err("down"), Ok([])]) == [(0, ["A"]), (1, ["A"])]
  {
    var h: seq<Result<seq<string>, string>> := [Ok(["A"]), Err("down"), Ok([])];
    assert h[..0] == [] && h[..1] == [Ok(["A"])] && h[..2] == [Ok(["A"]), Err("down")];
  }

  /**
   * The first |history| iterations of `symbol_fetcher_task`, iteration k
   * seeing fetch outcome history[k] at time clock(k). `published` logs each
   * `set_symbols` call as the iteration that made it and the list it passed.
   */
  method RunDiscovery(cache: Cache, history: seq<Result<seq<string>, string>>, clock: nat -> int)
    returns (cached: seq<string>, ghost published: seq<(nat, seq<string>)>)
    requires cache.Valid()
    modifies cache
    ensures cache.Valid()
    ensures cached == LastGood(history)
    ensures published == PublishLog(history)
    ensures cached != [] ==> cache.symbols == cached
    ensures cached == [] ==> cache.symbols == old(cache.symbols) && cache.symbolUpdate == old(cache.symbolUpdate)
    ensures published != [] ==>
      && cache.symbols == published[|published| - 1].1
      && cache.symbolUpdate == Some(clock(published[|published| - 1].0))
    ensures published == [] ==> cache.symbols == old(cache.symbols) && cache.symbolUpdate == old(cache.symbolUpdate)
    ensures forall i :: 0 <= i < |published| ==> published[i].1 != []
    ensures cache.data == old(cache.data) && cache.lastUpdate == old(cache.lastUpdate)
  {
    cached, published := [], [];
    var k := 0;
    while k < |history|
      invariant 0 <= k <= |history|
      invariant cache.Valid()
      invariant cached == LastGood(history[..k])
      invariant published == PublishLog(history[..k])
      invariant cached != [] ==> cache.symbols == cached
      invariant cached == [] ==> cache.symbols == old(cache.symbols) && cache.symbolUpdate == old(cache.symbolUpdate)
      invariant published != [] ==>
        && cache.symbols == published[|published| - 1].1
        && cache.symbolUpdate == Some(clock(published[|published| - 1].0))
      invariant published == [] ==> cache.symbols == old(cache.symbols) && cache.symbolUpdate == old(cache.symbolUpdate)
      invariant forall i :: 0 <= i < |published| ==> published[i].1 != []
      invariant cache.data == old(cache.data) && cache.lastUpdate == old(cache.lastUpdate)
    {
      ghost var pub;
      cached, pub := DiscoveryStep(cache, cached, history[k], clock(k));
      assert history[..k + 1][..k] == history[..k];
      assert pub == PublishedAt(history[..k + 1], k);
      if pub.Some? {
        published := published + [(k, pub.value)];
      }
      k := k + 1;
    }
    assert history[..k] == history;
  }
}

=== FILE: wrappers.dfy ===
/** Option and Result, the two failure-carrying shapes the Rust code uses. */
module Wrappers {

  datatype Option<+T> = None | Some(value: T)

  datatype Result<+R, +E> = Ok(value: R) | Err(error: E)
}
